=== FILE: README.md ===
# stm32loader TCP transport, modelled in Dafny

`TcpConnection` (stm32loader/tcp.py) lets stm32loader reach a microcontroller's
bootloader through a serial-to-network bridge instead of a local serial port.
It is a thin wrapper around a TCP socket, but three pieces of it have logic of
their own, and this project models and proves each of them:

- **The endpoint parse in `connect`.** The address text is split at its last
  `:`. Every leading and trailing `[` or `]` is stripped from the host, so
  `[::1]` becomes `::1`. The port text is read as a decimal number.
  (module `Endpoint`, endpoint.dfy)
- **The accumulation loop of `read`.** Receives are issued, each asking for
  the bytes still missing, until `amount` bytes are in hand or a receive
  returns nothing. The peer is a sequence of non-empty chunks that ends with
  end-of-stream. `recv(k)` returns at most `k` bytes from the front of what
  is left. (module `Stream`, stream.dfy)
- **The connection state.** It consists of the endpoint text, the socket
  handle (present or absent) and the stored timeout. Construction, the
  timeout getter and setter, `connect`, `disconnect` and `read` are
  transitions on this record. The operating system is a `Network` value. It
  says whether a socket can be created, what timeout a new socket starts
  with, and which addresses accept a connection. (module `Tcp`, tcp.dfy)

base.dfy holds `Option`, `Result`, `Outcome` and the `byte` type. Python
exceptions are modelled as `Err`/`Fail` values, so every operation is total.

Three behaviours of the code are easy to misread; the model follows the code:

- An empty host is accepted. For example, `[]:1` parses to host `""`. The code
  only strips brackets and never rejects an empty host.
- A socket handle does not mean "connected". `connect` stores the new socket
  before it parses the address. So an unparsable endpoint, a refused timeout
  or a refused connection each leaves a created but unconnected socket in the
  handle. `Tcp.HandleWithoutConnection` shows this on a concrete input.
- `read` with a non-positive amount never touches the handle. It returns
  empty even on an instance that was never connected.

## Model

| member | source | states |
|---|---|---|
| Endpoint.LastIndexOf | stm32loader/tcp.py:67 | finds the last `:`: absent exactly when the text has none; otherwise that position holds `:` and no `:` follows it |
| Endpoint.RSplitOnce | stm32loader/tcp.py:67 | `rsplit(':', maxsplit=1)` unpacked into two names: fails exactly when there is no `:`; otherwise the text is `before + ":" + after` with no `:` in `after` |
| Endpoint.RSplitOnceUnique | stm32loader/tcp.py:67 | any way of writing the text as `before + ":" + after` with no `:` in `after` is the split that rsplit returns |
| Endpoint.StripLeading | stm32loader/tcp.py:68 | `lstrip('[]')`: the result is a suffix of the input, the removed prefix is all brackets, and the result does not start with a bracket |
| Endpoint.StripTrailing | stm32loader/tcp.py:68 | `rstrip('[]')`: the result is a prefix of the input, the removed suffix is all brackets, and the result does not end with a bracket |
| Endpoint.StripBrackets | stm32loader/tcp.py:68 | `strip('[]')`: the result is a slice of the input with only brackets around it and no bracket at either end, so whole runs are removed and not just one matched pair |
| Endpoint.StrippingUnique | stm32loader/tcp.py:68 | there is only one such stripped form of a string, so the characterisation above pins down what `strip` returns |
| Endpoint.StripBracketsKeepsHost | stm32loader/tcp.py:68 | a host with no bracket at either end comes back unchanged, both bare and when wrapped in `[` `]` |
| Endpoint.ParseDecimal | stm32loader/tcp.py:69 | `int(port)` restricted to ASCII digits and without a cap on the number of digits: succeeds exactly on non-empty strings of decimal digits |
| Endpoint.DecimalRoundTrip | stm32loader/tcp.py:69 | reading back the decimal rendering of any natural number gives that number |
| Endpoint.ParseEndpoint | stm32loader/tcp.py:67-69 | fails with "no separator" exactly when there is no `:`; a parsed host never starts or ends with a bracket |
| Endpoint.ParseAtLastColon | stm32loader/tcp.py:67-69 | for `before + ":" + after` with no `:` in `after`: the host is `before` with its end brackets stripped, so an IPv6 literal keeps its inner colons. The port is the decimal value of `after`, and the parse fails when `after` is not decimal digits |
| Endpoint.ParseRendered | stm32loader/tcp.py:67-69 | `before:port` with the port written in decimal parses to that port and the stripped `before` |
| Endpoint.ParseRoundTrip | stm32loader/tcp.py:67-69 | for a host with no bracket at either end and any port `p`, parsing `host:p` gives back `(host, p)` |
| Endpoint.ParseRoundTripBracketed | stm32loader/tcp.py:67-69 | the same for `[host]:p`, the form used for IPv6 literals |
| Endpoint.ParseFailures | stm32loader/tcp.py:67-69 | with no cap on the number of port digits, parsing fails exactly when there is no `:`, or when the text after the last `:` is empty or not all digits |
| Endpoint.ExampleIPv4 | stm32loader/tcp.py:67-69 | `127.0.0.1:7777` parses to (`127.0.0.1`, 7777) |
| Endpoint.ExampleIPv6 | stm32loader/tcp.py:67-69 | `[::1]:7777` parses to (`::1`, 7777) |
| Endpoint.ExampleEmptyHost | stm32loader/tcp.py:67-69 | `[]:1` parses to an empty host and port 1; the code does not reject the empty host |
| Endpoint.ExampleFailures | stm32loader/tcp.py:67-69 | `localhost` has no separator; `localhost:` and `localhost:http` have a bad port |
| Stream.Recv | stm32loader/tcp.py:89 | one `recv(k)` returns at most `k` bytes from the front of the stream, and what is left still holds the rest. It returns empty exactly when asked for 0 bytes or when the stream has ended |
| Stream.Read | stm32loader/tcp.py:85-93 | `read(amount)` (amount 1 by default) returns exactly the first `min(amount, available)` bytes of the stream, and what is left of the peer continues the stream. A non-positive amount issues no receive. The data is all the receives concatenated in order. A short result comes only after an empty receive and is then the whole stream |
| Tcp.Init | stm32loader/tcp.py:39-50 | a new instance keeps its endpoint text, has no socket handle and a stored timeout of 5 seconds |
| Tcp.SetTimeout | stm32loader/tcp.py:57-62 | the setter always replaces the stored timeout. With no handle nothing else changes. With a handle the socket gets the new timeout if it accepts it (on POSIX: not negative, and at most 2^63-1 nanoseconds), and otherwise the setter raises and leaves the socket unchanged. The handle's presence and its connected address never change |
| Tcp.Connect | stm32loader/tcp.py:64-71 | a failed socket creation changes nothing. Otherwise a new socket always ends up in the handle, even when the parse, the timeout or the connect fails. It succeeds exactly when the endpoint parses, the socket accepts the stored timeout (on POSIX: not negative, at most 2^63-1 nanoseconds) and the address is listening, and the connected socket then carries the stored timeout. A parse failure is the address error; every other failure is a transport error. The socket left behind by a failure keeps the default timeout when the parse or `settimeout` failed, and carries the stored timeout when only the connect was refused |
| Tcp.Disconnect | stm32loader/tcp.py:73-79 | afterwards there is no handle; endpoint and timeout are unchanged; without a handle nothing changes at all |
| Tcp.Read | stm32loader/tcp.py:85-93 | a non-positive amount returns empty whatever the state. Otherwise a missing handle fails, and so does a socket that never connected. A connected socket returns the front `min(amount, available)` bytes of the stream |
| Tcp.DisconnectIdempotent | stm32loader/tcp.py:73-79 | disconnecting twice is the same as disconnecting once |
| Tcp.DisconnectFresh | stm32loader/tcp.py:39-50 | disconnecting a newly constructed instance changes nothing |
| Tcp.TimeoutSurvivesLifecycle | stm32loader/tcp.py:52-79 | the getter returns the value the setter last stored, even after a later connect (whatever its outcome) and disconnect |
| Tcp.SetTimeoutLastWins | stm32loader/tcp.py:57-62 | setting a timeout the socket accepts (POSIX bounds) makes any earlier setting irrelevant |
| Tcp.HugeTimeoutRefused | stm32loader/tcp.py:57-62 | on a connected instance, a timeout of ten billion seconds is stored but refused by the socket, which keeps its old timeout |
| Tcp.RefusedTimeoutDiverges | stm32loader/tcp.py:57-62 | a timeout the live socket refuses is still stored, so the getter and the socket then disagree |
| Tcp.ConnectForgetsOldHandle | stm32loader/tcp.py:64-66 | once a new socket is created, the previous handle plays no part in `connect`: a second connect drops the old socket without closing it (if creation fails, the previous handle is kept) |
| Tcp.ConnectDisconnectCycle | stm32loader/tcp.py:64-79 | connect followed by disconnect leaves the same state as disconnecting alone; only the endpoint and the stored timeout survive |
| Tcp.ConnectAppliesTimeout | stm32loader/tcp.py:57-71 | a timeout set while disconnected is the one the socket of a later successful connect carries |
| Tcp.HandleWithoutConnection | stm32loader/tcp.py:64-69 | connecting to `localhost` (no port) raises the address error yet leaves a new, unconnected socket in the handle |

## Left out

- `write` (stm32loader/tcp.py:81-83) passes its arguments straight to `socket.send` and has no logic of its own.
- `enable_reset`, `enable_boot0` and `flush_imput_buffer` (stm32loader/tcp.py:95-102) are empty stubs with no behaviour.
- The flags `swap_rts_dtr`, `reset_active_high` and `boot0_active_low` (stm32loader/tcp.py:43-45) are never read, so they are not modelled.
- Real socket behaviour is operating-system I/O. This covers socket creation, DNS lookup, address families, the connect handshake and timeout expiry. Its results are inputs: the `Network` value for `connect`, and the chunk sequence `Stream.Peer` for `recv`.
- The socket family is always `AF_INET`. Whether an IPv6 host can actually be reached belongs to the `Network` value; only the parse of such hosts is modelled.
- Endpoint.ParseDecimal: accepts only ASCII decimal digits. Python's `int()` also allows surrounding whitespace, a sign, `_` separators and non-ASCII digits; the model treats all of these as a bad port.
- Endpoint.ParseDecimal: has no cap on the number of digits. Recent CPython releases (3.11 and later, and the 2022 security releases of 3.7 to 3.10) refuse an `int()` of more than 4300 decimal digits by default. The cap is configurable and may be disabled, so a port text longer than the active cap parses in the model but raises in Python.
- Endpoint.ParseFailures: its "fails exactly when" leaves out the digit cap above. A port of more than 4300 digits is an address error in Python with the default cap, but parses in the model. `Tcp.Connect` then reports a transport error or success instead.
- Endpoint.ParseEndpoint: ports are unbounded naturals. A port above 65535 (or a negative one) makes the socket's connect raise; that outcome belongs to the `Network` value.
- Exception types (`ValueError`, `AttributeError`, `OSError`, `OverflowError`) are folded into three error values: address error, transport error and not connected.
- Stream.Read: a receive that raises in the middle of the loop is not modelled. Examples are a timeout or a reset connection, which would discard the bytes gathered so far. The modelled peer always ends with an orderly end-of-stream.
- Tcp.Connect: the socket dropped by a second `connect` is not tracked after it leaves the handle, so the leak shows only as the old handle being forgotten.
- Tcp.Disconnect: `close()` is taken never to fail.
- Timeouts are `Blocking` (Python's `None`) or an exact real number of seconds. Timeouts of other Python types, which raise `TypeError`, are not modelled.
- Tcp.SetTimeout: only the POSIX bounds on a socket timeout are modelled (not negative, at most 2^63-1 nanoseconds). Windows also converts the timeout to a C `timeval` and a count of milliseconds, so it refuses smaller values as well; on Windows such a value raises at stm32loader/tcp.py:62 while the model accepts it.
- Tcp.Connect: judges the stored timeout by the same POSIX bounds, so on Windows a stored timeout above that platform's smaller limit raises at stm32loader/tcp.py:70 while the model goes on to connect.
- Tcp.SetTimeoutLastWins: its `SocketAccepts(t2)` uses the POSIX bounds; on Windows a `t2` above that platform's smaller limit is refused and the earlier setting stays on the socket.
- Tcp.SetTimeout: the upper bound is checked on exact seconds times 10^9. The socket layer first rounds a float to whole nanoseconds, so a value within one nanosecond of the bound may be judged differently.

=== FILE: base.dfy ===
/** Small failure-carrying datatypes and the byte type shared by the other modules. */
module Base {

  /** An octet as carried by a TCP byte stream. */
  newtype byte = b: int | 0 <= b < 256

  datatype Option<+T> = None | Some(value: T)

  /** A value, or the reason it could not be produced (Python raises instead). */
  datatype Result<+T, +E> = Ok(value: T) | Err(error: E)

  /** The outcome of an operation whose only product is a state change. */
  datatype Outcome<+E> = Pass | Fail(error: E)

  function Min(a: int, b: int): (m: int)
  {
    if a <= b then a else b
  }

  function Max(a: int, b: int): (m: int)
  {
    if a <= b then b else a
  }
}

=== FILE: endpoint.dfy ===
/**
 * The address parse performed by `TcpConnection.connect`: the endpoint text is
 * split at its last ':', every leading and trailing '[' or ']' is stripped from
 * the host part, and the port part is read as a decimal number.
 */
module Endpoint {
  import opened Base

  /** The (host, port) pair handed to the socket layer. */
  datatype Address = Address(host: string, port: nat)

  /** Why an endpoint could not be parsed. */
  datatype ParseError =
    | NoSeparator   // no ':' at all, so the two-way unpacking of rsplit fails
    | BadPort       // the text after the last ':' is not a decimal number

  // ---------------------------------------------------------------------------
  // Splitting at the last separator (str.rsplit with maxsplit=1)
  // ---------------------------------------------------------------------------

  /** The position of the last occurrence of `c` in `s`, if any. */
  function LastIndexOf(s: string, c: char): (r: Option<nat>)
    ensures r.None? <==> c !in s
    ensures r.Some? ==> r.value < |s| && s[r.value] == c && c !in s[r.value + 1..]
  {
    if |s| == 0 then None
    else if s[|s| - 1] == c then Some(|s| - 1)
    else
      var r := LastIndexOf(s[..|s| - 1], c);
      assert s == s[..|s| - 1] + [s[|s| - 1]];
      r
  }

  /**
   * Splits `s` into the text before and after its last `sep`; None when `sep`
   * does not occur, which is the case `connect`'s two-name unpacking rejects.
   */
  function RSplitOnce(s: string, sep: char): (r: Option<(string, string)>)
    ensures r.None? <==> sep !in s
    ensures r.Some? ==> s == r.value.0 + [sep] + r.value.1 && sep !in r.value.1
  {
    match LastIndexOf(s, sep)
    case None => None
    case Some(i) =>
      assert s == s[..i] + [sep] + s[i + 1..];
      Some((s[..i], s[i + 1..]))
  }

  /** Any decomposition at a separator with none after it is the one rsplit finds. */
  lemma RSplitOnceUnique(before: string, sep: char, after: string)
    requires sep !in after
    ensures RSplitOnce(before + [sep] + after, sep) == Some((before, after))
  {
    var s := before + [sep] + after;
    assert s[|before|] == sep;
    var i := LastIndexOf(s, sep).value;
    if i < |before| {
      assert false;
    } else if i > |before| {
      assert false;
    }
    assert s[..i] == before;
    assert s[i + 1..] == after;
  }

  // ---------------------------------------------------------------------------
  // Stripping brackets (str.strip('[]'))
  // ---------------------------------------------------------------------------

  predicate IsBracket(ch: char)
  {
    ch == '[' || ch == ']'
  }

  predicate AllBrackets(s: string)
  {
    forall k :: 0 <= k < |s| ==> IsBracket(s[k])
  }

  /** `s` neither starts nor ends with a bracket character. */
  predicate BracketFreeEnds(s: string)
  {
    s == [] || (!IsBracket(s[0]) && !IsBracket(s[|s| - 1]))
  }

  /** Removes the longest run of brackets from the front: `r` is what remains. */
  function StripLeading(s: string): (r: string)
    ensures |r| <= |s| && r == s[|s| - |r|..]
    ensures AllBrackets(s[..|s| - |r|])
    ensures r != [] ==> !IsBracket(r[0])
    decreases |s|
  {
    if s != [] && IsBracket(s[0]) then
      var r := StripLeading(s[1..]);
      assert s[..|s| - |r|] == [s[0]] + s[1..][..|s| - 1 - |r|];
      r
    else
      s
  }

  /** Removes the longest run of brackets from the back: `r` is what remains. */
  function StripTrailing(s: string): (r: string)
    ensures |r| <= |s| && r == s[..|r|]
    ensures AllBrackets(s[|r|..])
    ensures r != [] ==> !IsBracket(r[|r| - 1])
    decreases |s|
  {
    if s != [] && IsBracket(s[|s| - 1]) then
      var r := StripTrailing(s[..|s| - 1]);
      assert s[|r|..] == s[..|s| - 1][|r|..] + [s[|s| - 1]];
      r
    else
      s
  }

  /**
   * `r` is `s` with a run of brackets removed from each end and no bracket left
   * at either end: the independent description of what str.strip('[]') returns.
   */
  ghost predicate IsStrippingOf(s: string, r: string)
  {
    && |r| <= |s|
    && BracketFreeEnds(r)
    && exists i :: 0 <= i <= |s| - |r| && IsStrippingAt(s, r, i)
  }

  /** `r` sits at offset `i` of `s`, with only brackets around it. */
  ghost predicate IsStrippingAt(s: string, r: string, i: int)
    requires 0 <= i <= |s| - |r|
  {
    r == s[i..i + |r|] && AllBrackets(s[..i]) && AllBrackets(s[i + |r|..])
  }

  /** Python's `s.strip('[]')`: leading run first, then trailing run. */
  function StripBrackets(s: string): (r: string)
    ensures IsStrippingOf(s, r)
  {
    var m := StripLeading(s);
    var r := StripTrailing(m);
    var i := |s| - |m|;
    assert r == s[i..i + |r|];
    assert s[i + |r|..] == m[|r|..];
    assert IsStrippingAt(s, r, i);
    r
  }

  /** The stripped form of a string is unique. */
  lemma StrippingUnique(s: string, r1: string, r2: string)
    requires IsStrippingOf(s, r1) && IsStrippingOf(s, r2)
    ensures r1 == r2
  {
    var i1 :| 0 <= i1 <= |s| - |r1| && IsStrippingAt(s, r1, i1);
    var i2 :| 0 <= i2 <= |s| - |r2| && IsStrippingAt(s, r2, i2);
    if r1 != [] && r2 != [] {
      // The first non-bracket character of s fixes both offsets, and the last
      // one fixes both ends.
      if i1 != i2 || i1 + |r1| != i2 + |r2| {
        assert false;
      }
    } else if r1 != [] || r2 != [] {
      // s is all brackets around the empty one, yet the other holds a non-bracket.
      assert false;
    }
  }

  /** A host that has no bracket at its ends comes back unchanged, bare or bracketed. */
  lemma StripBracketsKeepsHost(h: string)
    requires BracketFreeEnds(h)
    ensures StripBrackets(h) == h
    ensures StripBrackets("[" + h + "]") == h
  {
    assert IsStrippingAt(h, h, 0);
    StrippingUnique(h, StripBrackets(h), h);
    BracketedIsStripping(h);
    StrippingUnique("[" + h + "]", StripBrackets("[" + h + "]"), h);
  }

  lemma BracketedIsStripping(h: string)
    requires BracketFreeEnds(h)
    ensures IsStrippingOf("[" + h + "]", h)
  {
    var b := "[" + h + "]";
    assert b[1..1 + |h|] == h;
    assert b[..1] == "[";
    assert b[1 + |h|..] == "]";
    assert IsStrippingAt(b, h, 1);
  }

  // ---------------------------------------------------------------------------
  // Decimal port numbers (int() restricted to ASCII digits)
  // ---------------------------------------------------------------------------

  predicate IsDigit(ch: char)
  {
    '0' <= ch <= '9'
  }

  predicate AllDigits(s: string)
  {
    forall k :: 0 <= k < |s| ==> IsDigit(s[k])
  }

  /** The number a string of decimal digits denotes, most significant first. */
  function DigitsValue(s: string): (v: nat)
    requires AllDigits(s)
  {
    if s == [] then 0
    else 10 * DigitsValue(s[..|s| - 1]) + (s[|s| - 1] as int - '0' as int)
  }

  /** Reads a port: a non-empty string of ASCII decimal digits, else None. */
  function ParseDecimal(s: string): (r: Option<nat>)
    ensures r.Some? <==> s != [] && AllDigits(s)
  {
    if s != [] && AllDigits(s) then Some(DigitsValue(s)) else None
  }

  function DigitChar(d: nat): (c: char)
    requires d < 10
    ensures IsDigit(c)
  {
    ('0' as int + d) as char
  }

  /** The usual decimal rendering of `n`, without leading zeros. */
  function Decimal(n: nat): (r: string)
    ensures r != [] && AllDigits(r)
  {
    if n < 10 then [DigitChar(n)] else Decimal(n / 10) + [DigitChar(n % 10)]
  }

  /** Reading back a rendered number gives the number. */
  lemma {:induction false} DecimalRoundTrip(n: nat)
    ensures ParseDecimal(Decimal(n)) == Some(n)
  {
    var s := Decimal(n);
    if n < 10 {
      assert s[..|s| - 1] == [];
      assert DigitsValue(s) == s[0] as int - '0' as int == n;
    } else {
      DecimalRoundTrip(n / 10);
      assert s[..|s| - 1] == Decimal(n / 10);
    }
  }

  // ---------------------------------------------------------------------------
  // The endpoint parse
  // ---------------------------------------------------------------------------

  /** Turns an endpoint such as `host:port` or `[::1]:port` into an Address. */
  function ParseEndpoint(endpoint: string): (r: Result<Address, ParseError>)
    ensures r == Err(NoSeparator) <==> ':' !in endpoint
    ensures r.Ok? ==> BracketFreeEnds(r.value.host)
  {
    match RSplitOnce(endpoint, ':')
    case None => Err(NoSeparator)
    case Some((ip, port)) =>
      match ParseDecimal(port)
      case None => Err(BadPort)
      case Some(p) => Ok(Address(StripBrackets(ip), p))
  }

  /**
   * Whatever precedes the last ':' is the host, with all brackets stripped from
   * its ends (so an IPv6 literal keeps its own colons), and whatever follows is
   * the port, which must be decimal digits.
   */
  lemma ParseAtLastColon(before: string, after: string)
    requires ':' !in after
    ensures ParseEndpoint(before + ":" + after) ==
      if after != [] && AllDigits(after)
      then Ok(Address(StripBrackets(before), DigitsValue(after)))
      else Err(BadPort)
    ensures ParseEndpoint(before + ":" + after).Ok? ==>
      IsStrippingOf(before, ParseEndpoint(before + ":" + after).value.host)
  {
    RSplitOnceUnique(before, ':', after);
  }

  lemma DecimalHasNoColon(n: nat)
    ensures ':' !in Decimal(n)
  {
  }

  /** Rendering a host and port and parsing the result gives them back. */
  lemma ParseRoundTrip(host: string, port: nat)
    requires BracketFreeEnds(host)
    ensures ParseEndpoint(host + ":" + Decimal(port)) == Ok(Address(host, port))
  {
    StripBracketsKeepsHost(host);
    ParseRendered(host, port);
  }

  /** The same holds with the host wrapped in brackets, as IPv6 literals are written. */
  lemma ParseRoundTripBracketed(host: string, port: nat)
    requires BracketFreeEnds(host)
    ensures ParseEndpoint("[" + host + "]" + ":" + Decimal(port)) == Ok(Address(host, port))
  {
    ParseRendered("[" + host + "]", port);
    StripBracketsKeepsHost(host);
  }

  /** Parsing `before:port` with a rendered port yields that port and the stripped host. */
  lemma ParseRendered(before: string, port: nat)
    ensures ParseEndpoint(before + ":" + Decimal(port)) == Ok(Address(StripBrackets(before), port))
  {
    DecimalHasNoColon(port);
    DecimalRoundTrip(port);
    ParseAtLastColon(before, Decimal(port));
  }

  /** Parsing fails exactly when there is no ':' or the port text is not decimal. */
  lemma ParseFailures(endpoint: string)
    ensures ParseEndpoint(endpoint).Err? <==>
      ':' !in endpoint ||
      (exists before, after :: endpoint == before + ":" + after && ':' !in after
         && (after == [] || !AllDigits(after)))
  {
    match RSplitOnce(endpoint, ':')
    case None =>
    case Some((before, after)) =>
      ParseAtLastColon(before, after);
      if exists b, a :: endpoint == b + ":" + a && ':' !in a && (a == [] || !AllDigits(a)) {
        var b, a :| endpoint == b + ":" + a && ':' !in a && (a == [] || !AllDigits(a));
        ParseAtLastColon(b, a);
      }
  }

  // Each example first rewrites the literal into rendered form, so the parse
  // is reached through the round-trip lemmas.

  /** An IPv4 endpoint. */
  lemma ExampleIPv4()
    ensures ParseEndpoint("127.0.0.1:7777") == Ok(Address("127.0.0.1", 7777))
  {
    calc {
      ParseEndpoint("127.0.0.1:7777");
      { assert "127.0.0.1:7777" == "127.0.0.1" + ":" + Decimal(7777); }
      ParseEndpoint("127.0.0.1" + ":" + Decimal(7777));
      { ParseRoundTrip("127.0.0.1", 7777); }
      Ok(Address("127.0.0.1", 7777));
    }
  }

  /** A bracketed IPv6 literal keeps its own colons. */
  lemma ExampleIPv6()
    ensures ParseEndpoint("[::1]:7777") == Ok(Address("::1", 7777))
  {
    calc {
      ParseEndpoint("[::1]:7777");
      { assert "[::1]:7777" == "[" + "::1" + "]" + ":" + Decimal(7777); }
      ParseEndpoint("[" + "::1" + "]" + ":" + Decimal(7777));
      { ParseRoundTripBracketed("::1", 7777); }
      Ok(Address("::1", 7777));
    }
  }

  /** Brackets are stripped as a set of characters, so `[]` leaves an empty host. */
  lemma ExampleEmptyHost()
    ensures ParseEndpoint("[]:1") == Ok(Address("", 1))
  {
    assert IsStrippingAt("[]", "", 0);
    StrippingUnique("[]", StripBrackets("[]"), "");
    calc {
      ParseEndpoint("[]:1");
      { assert "[]:1" == "[]" + ":" + Decimal(1); }
      ParseEndpoint("[]" + ":" + Decimal(1));
      { ParseRendered("[]", 1); }
      Ok(Address("", 1));
    }
  }

  /** A missing or non-numeric port is refused. */
  lemma ExampleFailures()
    ensures ParseEndpoint("localhost") == Err(NoSeparator)
    ensures ParseEndpoint("localhost:") == Err(BadPort)
    ensures ParseEndpoint("localhost:http") == Err(BadPort)
  {
    assert "localhost:" == "localhost" + ":" + "";
    ParseAtLastColon("localhost", "");
    assert "localhost:http" == "localhost" + ":" + "http";
    ParseAtLastColon("localhost", "http");
    assert !IsDigit("http"[0]);
  }
}

=== FILE: stream.dfy ===
/**
 * The receive side of the TCP stream and the accumulation loop of
 * `TcpConnection.read`. The peer is modelled as the sequence of non-empty
 * chunks it still has to deliver, followed by end-of-stream.
 */
module Stream {
  import opened Base

  /** Concatenation of a sequence of byte strings, in order. */
  function Concat(parts: seq<seq<byte>>): (joined: seq<byte>)
  {
    if parts == [] then [] else parts[0] + Concat(parts[1..])
  }

  lemma {:induction false} ConcatAppend(parts: seq<seq<byte>>, last: seq<byte>)
    ensures Concat(parts + [last]) == Concat(parts) + last
    decreases |parts|
  {
    if parts == [] {
      assert [] + [last] == [last];
    } else {
      assert (parts + [last])[1..] == parts[1..] + [last];
      ConcatAppend(parts[1..], last);
    }
  }

  /**
   * What the peer still has to deliver. Each chunk is what one receive can see
   * at most; once the chunks run out, receives report end-of-stream.
   */
  datatype Peer = Peer(chunks: seq<seq<byte>>)
  {
    /** A real stream never hands out an empty chunk before it has ended. */
    predicate Valid()
    {
      forall i :: 0 <= i < |chunks| ==> chunks[i] != []
    }

    /** Every byte the peer will still deliver, in order. */
    function Bytes(): seq<byte>
    {
      Concat(chunks)
    }
  }

  /**
   * One `recv(k)`: at most `k` bytes from the front of the remaining stream,
   * empty only when asked for nothing or when the stream has ended.
   */
  function Recv(p: Peer, k: nat): (r: (seq<byte>, Peer))
    requires p.Valid()
    ensures r.1.Valid()
    ensures |r.0| <= k
    ensures p.Bytes() == r.0 + r.1.Bytes()
    ensures r.0 == [] <==> k == 0 || p.Bytes() == []
  {
    if k == 0 || p.chunks == [] then ([], p)
    else
      var c := p.chunks[0];
      if |c| <= k then (c, Peer(p.chunks[1..]))
      else
        var rest := Peer([c[k..]] + p.chunks[1..]);
        assert rest.chunks[1..] == p.chunks[1..];
        assert c == c[..k] + c[k..];
        (c[..k], rest)
  }

  /**
   * `read(amount)`: receive repeatedly, asking each time for the bytes still
   * missing, until `amount` bytes are in hand or a receive comes back empty.
   * Besides the data it returns what is left of the peer and the result of
   * every receive it issued, in order.
   */
  method Read(peer: Peer, amount: int := 1) returns (data: seq<byte>, rest: Peer, receives: seq<seq<byte>>)
    requires peer.Valid()
    ensures rest.Valid()
    // never more than asked for, and nothing at all for a non-positive amount
    ensures |data| <= Max(amount, 0)
    ensures amount <= 0 ==> data == [] && receives == [] && rest == peer
    // the data is the front of the stream, and the stream continues with `rest`
    ensures peer.Bytes() == data + rest.Bytes()
    ensures data == peer.Bytes()[..Min(Max(amount, 0), |peer.Bytes()|)]
    // the data is the receives concatenated
    ensures data == Concat(receives)
    // a short result happens only after an empty receive, and is the whole stream
    ensures |data| < amount ==> receives != [] && receives[|receives| - 1] == []
    ensures |data| < amount ==> data == peer.Bytes() && rest.Bytes() == []
    // every receive but the last brought data
    ensures forall i :: 0 <= i < |receives| - 1 ==> receives[i] != []
  {
    data := [];
    rest := peer;
    receives := [];
    while |data| < amount
      invariant rest.Valid()
      invariant |data| <= Max(amount, 0)
      invariant peer.Bytes() == data + rest.Bytes()
      invariant data == Concat(receives)
      invariant forall i :: 0 <= i < |receives| ==> receives[i] != []
      invariant amount <= 0 ==> receives == [] && rest == peer
      decreases amount - |data|
    {
      var (newData, remaining) := Recv(rest, amount - |data|);
      ConcatAppend(receives, newData);
      receives := receives + [newData];
      if newData == [] {
        break;
      }
      data := data + newData;
      rest := remaining;
    }
  }
}

=== FILE: tcp.dfy ===
/**
 * The state of a `TcpConnection` and its transitions: construction, the
 * timeout property, `connect`, `disconnect` and `read` over a live handle.
 * The operating system's socket layer is replaced by a `Network` value that
 * says whether a socket can be created and which addresses accept a
 * connection; the bytes a peer sends are a `Stream.Peer`.
 */
module Tcp {
  import opened Base
  import Endpoint
  import Stream

  /** A socket timeout: `None` in Python (block forever) or a number of seconds. */
  datatype Timeout = Blocking | Seconds(seconds: real)

  /**
   * The largest timeout socket.settimeout can hold on a POSIX platform, in
   * nanoseconds: there it keeps timeouts as a signed 64-bit count of
   * nanoseconds, and that is the only bound.
   */
  const MaxTimeoutNanoseconds: real := 9223372036854775807.0

  /**
   * socket.settimeout on a POSIX platform refuses a negative number of
   * seconds, and one whose count of nanoseconds does not fit in a signed
   * 64-bit integer. Platforms that also convert the timeout to a C `timeval`
   * or a count of milliseconds (Windows) refuse smaller values as well; those
   * bounds are not part of this predicate.
   */
  predicate SocketAccepts(t: Timeout)
  {
    t.Blocking? || (0.0 <= t.seconds && t.seconds * 1000000000.0 <= MaxTimeoutNanoseconds)
  }

  /**
   * The socket object held in `tcp_connection`: the timeout applied to it and
   * the address it is connected to, if its connect call has succeeded.
   */
  datatype Socket = Socket(timeout: Timeout, remote: Option<Endpoint.Address>)

  /**
   * The fields of a `TcpConnection` that carry behaviour: the endpoint text,
   * the socket handle (None before connect and after disconnect) and the
   * stored timeout.
   */
  datatype TcpConnection = TcpConnection(address: string, handle: Option<Socket>, timeout: Timeout)

  /** What the operating system does with socket requests, as far as it matters here. */
  datatype Network = Network(
    canCreate: bool,                        // socket.socket succeeds
    defaultTimeout: Timeout,                // timeout a fresh socket starts with
    listening: set<Endpoint.Address>)       // addresses whose connect succeeds

  datatype Error =
    | AddressError     // the endpoint text does not parse
    | TransportError   // the socket layer raised
    | NotConnected     // the handle is None, so the attribute lookup fails

  /** The state after an operation, and whether the operation raised. */
  datatype Step = Step(conn: TcpConnection, outcome: Outcome<Error>)

  const DefaultTimeout: Timeout := Seconds(5.0)

  /** A connection as constructed: not connected, default timeout. */
  function Init(address: string): (c: TcpConnection)
    ensures c.address == address && c.handle.None?
    ensures GetTimeout(c) == DefaultTimeout
  {
    TcpConnection(address, None, DefaultTimeout)
  }

  /** The timeout property's getter: the stored value, whatever the socket has. */
  function GetTimeout(c: TcpConnection): (t: Timeout)
  {
    c.timeout
  }

  /**
   * The timeout property's setter. The stored value changes first; only when
   * a handle is present is the value pushed to the socket, which may refuse it.
   */
  function SetTimeout(c: TcpConnection, t: Timeout): (r: Step)
    ensures GetTimeout(r.conn) == t
    ensures r.conn.address == c.address
    ensures c.handle.None? ==> r == Step(c.(timeout := t), Pass)
    ensures c.handle.Some? ==> r.conn.handle.Some? && r.conn.handle.value.remote == c.handle.value.remote
    ensures c.handle.Some? ==> (r.outcome.Pass? <==> SocketAccepts(t))
    ensures c.handle.Some? && SocketAccepts(t) ==> r.conn.handle.value.timeout == t
    ensures r.outcome.Fail? ==> r.conn.handle == c.handle && r.outcome.error == TransportError
  {
    var stored := c.(timeout := t);
    match c.handle
    case None => Step(stored, Pass)
    case Some(s) =>
      if SocketAccepts(t) then Step(stored.(handle := Some(s.(timeout := t))), Pass)
      else Step(stored, Fail(TransportError))
  }

  /**
   * `connect`, effect by effect: a fresh socket replaces the handle, then the
   * endpoint is parsed, then the stored timeout is applied, then the socket
   * connects. Any failure after the first step leaves the fresh, unconnected
   * socket in the handle.
   */
  function Connect(c: TcpConnection, net: Network): (r: Step)
    ensures r.conn.address == c.address && r.conn.timeout == c.timeout
    ensures !net.canCreate ==> r == Step(c, Fail(TransportError))
    ensures net.canCreate ==> r.conn.handle.Some?
    ensures r.outcome.Pass? <==>
      && net.canCreate
      && Endpoint.ParseEndpoint(c.address).Ok?
      && SocketAccepts(c.timeout)
      && Endpoint.ParseEndpoint(c.address).value in net.listening
    ensures r.outcome.Pass? ==>
      r.conn.handle == Some(Socket(c.timeout, Some(Endpoint.ParseEndpoint(c.address).value)))
    ensures r.outcome.Fail? && net.canCreate ==> r.conn.handle.value.remote.None?
    ensures r.outcome == Fail(AddressError) <==> net.canCreate && Endpoint.ParseEndpoint(c.address).Err?
    ensures r.outcome.Fail? ==> r.outcome.error != NotConnected
    // the stored timeout reaches the socket only once the parse has succeeded
    ensures net.canCreate && r.outcome.Fail? ==>
      r.conn.handle.value.timeout ==
        if Endpoint.ParseEndpoint(c.address).Ok? && SocketAccepts(c.timeout) then c.timeout
        else net.defaultTimeout
  {
    if !net.canCreate then Step(c, Fail(TransportError))
    else
      var newSocket := Socket(net.defaultTimeout, None);
      var created := c.(handle := Some(newSocket));
      match Endpoint.ParseEndpoint(c.address)
      case Err(_) => Step(created, Fail(AddressError))
      case Ok(addr) =>
        if !SocketAccepts(c.timeout) then Step(created, Fail(TransportError))
        else
          var timed := newSocket.(timeout := c.timeout);
          if addr in net.listening then Step(c.(handle := Some(timed.(remote := Some(addr)))), Pass)
          else Step(c.(handle := Some(timed)), Fail(TransportError))
  }

  /** `disconnect`: drop the handle if there is one; otherwise nothing happens. */
  function Disconnect(c: TcpConnection): (r: TcpConnection)
    ensures r.handle.None?
    ensures r.address == c.address && GetTimeout(r) == GetTimeout(c)
    ensures c.handle.None? ==> r == c
  {
    if c.handle.None? then c else c.(handle := None)
  }

  /**
   * `read(amount)` on a connection. For a non-positive amount the loop body
   * never runs, so even an unconnected instance returns empty. Otherwise the
   * first receive needs a handle, and a socket that never connected refuses it.
   */
  method Read(c: TcpConnection, peer: Stream.Peer, amount: int := 1)
      returns (r: Result<seq<byte>, Error>, rest: Stream.Peer)
    requires peer.Valid()
    ensures rest.Valid()
    ensures amount <= 0 ==> r == Ok([]) && rest == peer
    ensures amount > 0 && c.handle.None? ==> r == Err(NotConnected) && rest == peer
    ensures amount > 0 && c.handle.Some? && c.handle.value.remote.None? ==>
      r == Err(TransportError) && rest == peer
    ensures amount > 0 && c.handle.Some? && c.handle.value.remote.Some? ==>
      && r.Ok?
      && r.value == peer.Bytes()[..Min(amount, |peer.Bytes()|)]
      && peer.Bytes() == r.value + rest.Bytes()
  {
    if amount <= 0 {
      return Ok([]), peer;
    }
    match c.handle
    case None =>
      return Err(NotConnected), peer;
    case Some(s) =>
      if s.remote.None? {
        return Err(TransportError), peer;
      }
      var data, remaining, _ := Stream.Read(peer, amount);
      return Ok(data), remaining;
  }

  // ---------------------------------------------------------------------------
  // Properties of the lifecycle
  // ---------------------------------------------------------------------------

  /** Disconnecting twice is disconnecting once. */
  lemma DisconnectIdempotent(c: TcpConnection)
    ensures Disconnect(Disconnect(c)) == Disconnect(c)
  {
  }

  /** A fresh instance is already disconnected: disconnect changes nothing. */
  lemma DisconnectFresh(address: string)
    ensures Disconnect(Init(address)) == Init(address)
  {
  }

  /**
   * The getter returns what the setter last stored, however connect and
   * disconnect fare afterwards.
   */
  lemma TimeoutSurvivesLifecycle(c: TcpConnection, t: Timeout, net: Network)
    ensures GetTimeout(Connect(SetTimeout(c, t).conn, net).conn) == t
    ensures GetTimeout(Disconnect(Connect(SetTimeout(c, t).conn, net).conn)) == t
  {
  }

  /** Setting a timeout the socket accepts overrides any earlier setting. */
  lemma SetTimeoutLastWins(c: TcpConnection, t1: Timeout, t2: Timeout)
    requires SocketAccepts(t2)
    ensures SetTimeout(SetTimeout(c, t1).conn, t2).conn == SetTimeout(c, t2).conn
  {
  }

  /**
   * A refused timeout while connected still replaces the stored value, so the
   * getter and the live socket disagree afterwards.
   */
  lemma RefusedTimeoutDiverges(c: TcpConnection, t: Timeout)
    requires c.handle.Some? && !SocketAccepts(t) && c.handle.value.timeout != t
    ensures GetTimeout(SetTimeout(c, t).conn) != SetTimeout(c, t).conn.handle.value.timeout
  {
  }

  /**
   * Ten billion seconds is too many nanoseconds for the socket: a connected
   * instance stores the value, raises, and keeps the socket's old timeout.
   */
  lemma HugeTimeoutRefused(c: TcpConnection)
    requires c.handle.Some?
    ensures SetTimeout(c, Seconds(10000000000.0)).outcome == Fail(TransportError)
    ensures SetTimeout(c, Seconds(10000000000.0)).conn.handle == c.handle
    ensures GetTimeout(SetTimeout(c, Seconds(10000000000.0)).conn) == Seconds(10000000000.0)
  {
  }

  /**
   * Once a new socket is created, the previous handle plays no part in
   * connect: connecting again simply forgets the old socket, without closing
   * it. (When creation fails, the previous handle is kept.)
   */
  lemma ConnectForgetsOldHandle(c: TcpConnection, previous: Option<Socket>, net: Network)
    requires net.canCreate
    ensures Connect(c, net) == Connect(c.(handle := previous), net)
  {
  }

  /** Only the stored timeout survives a connect and disconnect cycle. */
  lemma ConnectDisconnectCycle(c: TcpConnection, net: Network)
    ensures Disconnect(Connect(c, net).conn) == Disconnect(c)
  {
  }

  /** A successful connect applies the stored timeout to the new socket. */
  lemma ConnectAppliesTimeout(c: TcpConnection, t: Timeout, net: Network)
    requires Connect(SetTimeout(c, t).conn, net).outcome.Pass?
    ensures Connect(SetTimeout(c, t).conn, net).conn.handle.value.timeout == t
  {
  }

  /**
   * The handle is not a connectedness flag: an endpoint without a port leaves
   * a created but unconnected socket behind, so a later read fails in the
   * socket layer rather than on the missing handle.
   */
  lemma HandleWithoutConnection(net: Network)
    requires net.canCreate
    ensures Connect(Init("localhost"), net).outcome == Fail(AddressError)
    ensures Connect(Init("localhost"), net).conn.handle == Some(Socket(net.defaultTimeout, None))
  {
  }
}
